=== FILE: README.md ===
# Bouncing ball: game logic model

A Dafny model of the game logic of a small single-screen arcade game with a
green ball. The game has three states: a main menu (Start Game / Quit), a
playing state, and a game-over menu (Restart / Quit). While the game is
playing, the ball is driven by the held Left/Right keys, jumps on Up (only
from the ground), falls under gravity, bounces off the side walls and lands
on the ground.

The model follows the structure of `main.cpp` with the graphics library
removed:

- `GameTypes.dfy`: the physics constants, `GameState`, the `GameData`
  record (without its frame clock), the initial value and `ResetGame`.
- `Menu.dfy`: the wraparound Up/Down arithmetic of the two-button menus.
  It models the conversion of the signed selection to the unsigned
  `size_t` button count (reduction modulo 2^64 on a 64-bit target; a
  32-bit `size_t` gives the same results for a two-button menu).
- `Physics.dfy`: `updatePhysics`, `handleCollisions` and `updateGame`.
  They become pure functions of the game data, the held keys and the
  frame time.
- `Events.dfy`: `handleEvents`, one event at a time. Closing the window
  becomes an output flag.
- `GameLoop.dfy`: the main loop as a sequence of frames. Each frame holds
  its events, the held keys and the frame time.

Floats (`ballPosition`, `ballVelocity`, the frame time) are modelled as
`real`. No rounding is modelled.

Two behaviours of the code are proved rather than assumed:

- The game-over test (`main.cpp:293`) can never fire. `handleCollisions`
  always leaves `y <= GROUND_LEVEL`, so `y > GROUND_LEVEL + BALL_RADIUS`
  is false. No sequence of frames reaches `GameOver`
  (`GameLoop.GameOverUnreachable`).
- Escape does nothing in either menu. The branch at `main.cpp:280-282`
  follows branches for all three states, so it is unreachable
  (`Events.MenuEscapeIgnored`).

Two further consequences of the code:

- Over a full frame with no key held, the horizontal deceleration runs
  before the collision. A ball at the left wall with `vx = -50` therefore
  leaves with `vx = max(0, 50 - 200*dt)`. `Physics.LeftWallReflects`
  states the collision step alone.
- Entering the game-over menu would reset the selection to 0
  (`main.cpp:295`). That code is modelled, but it is unreachable.

## Model

| member | source | states |
|---|---|---|
| GameTypes.InitialGameData | main.cpp:42-46 | The game starts in the main menu with the first button selected and the ball at rest on the ground at (640, GROUND_LEVEL). |
| GameTypes.ResetGame | main.cpp:396-400 | Reset puts the ball at the spawn point, at rest and on the ground. It leaves the state and the menu selection unchanged. |
| GameTypes.ResetForgetsBall | main.cpp:396-400 | The ball after a reset does not depend on the ball before it. |
| GameTypes.ResetAgreesWithInitial | main.cpp:42-44 | The constructor and resetGame use the same spawn point: resetting the initial value is the identity. Reset is idempotent. |
| Menu.ToSizeT | main.cpp:248 | Converting a signed value to `size_t` is the identity on non-negative values below 2^64. It adds 2^64 to negative values down to -2^64. |
| Menu.MenuUp | main.cpp:248 | Up gives a selection in `[0, count)` from any starting selection. |
| Menu.MenuDown | main.cpp:250 | Down gives a selection in `[0, count)` from any starting selection. |
| Menu.MenuUpWraps | main.cpp:248 | From a valid selection, Up moves to the previous button. From the first button it wraps to the last. |
| Menu.MenuDownWraps | main.cpp:250 | From a valid selection, Down moves to the next button. From the last button it wraps to the first. |
| Menu.UpDownInverse | main.cpp:247-250 | Up then Down, and Down then Up, both leave a valid selection unchanged. |
| Menu.DownRepeated | main.cpp:249-250 | Pressing Down any number of times keeps the selection in `[0, count)`. |
| Menu.DownRepeatedSplit | main.cpp:249-250 | Pressing Down `a + b` times equals pressing it `a` times and then `b` times. |
| Menu.DownRepeatedClimbs | main.cpp:249-250 | Below the last button, each Down press moves exactly one button further. |
| Menu.DownCycle | main.cpp:249-250 | Pressing Down `count` times returns to the starting button: wraparound is a cycle of length `count`. |
| Physics.Decelerate | main.cpp:311-316 | For `dt >= 0`, deceleration keeps the sign of `vx` and never increases `abs(vx)`. A zero `vx` stays zero. |
| Physics.DecelerateShrinksSpeed | main.cpp:311-316 | For `dt >= 0`, deceleration keeps the direction and removes `DECELERATION*dt` of speed, or all of it if the ball is slower. |
| Physics.HorizontalControl | main.cpp:305-317 | Left alone never increases `vx` and Right alone never decreases it. With neither or both held and `dt >= 0`, the result is `sign(vx) * max(0, abs(vx) - DECELERATION*dt)`: the speed drops by the deceleration but never past zero, so the sign is kept. |
| Physics.ClampSpeed | main.cpp:320 | The result lies in `[-MAX_HORIZONTAL_SPEED, MAX_HORIZONTAL_SPEED]`. It equals the input inside that range and the nearer bound outside it. |
| Physics.UpdatePhysics | main.cpp:300-330 | After the update, `vx` is within the speed limit. Gravity changes `vy` only when the ball is in the air. With neither or both keys held, `vx` keeps its sign and does not grow. For `dt >= 0` and a `vx` within the limit, it is exactly the deceleration that `Physics.HorizontalControl` states. With Left alone (Right alone) and `dt >= 0`, a `vx` within the limit becomes `max(-MAX, vx - ACCEL*dt)` (`min(MAX, vx + ACCEL*dt)`). The position advances by the updated velocity times `dt`. The ground flag, the state and the selection are unchanged. |
| Physics.HandleCollisions | main.cpp:332-350 | After collisions the ball lies between the walls and not below the ground. It is on the ground exactly when its pre-collision `y >= GROUND_LEVEL`, and then `vy == 0`. A wall hit negates `vx`. Otherwise `x` and `vx` are unchanged. |
| Physics.GameOverTestNeverFires | main.cpp:293 | After handleCollisions the test `y > GROUND_LEVEL + BALL_RADIUS` is false. |
| Physics.UpdateGame | main.cpp:287-298 | Outside Playing the update is the identity. It never changes the state or the selection, so GameOver is never entered. While playing, the result keeps `vx` within the speed limit and the ball in the arena. |
| Physics.SpawnIsFixedPoint | main.cpp:300-349 | A ball at rest on the ground at the spawn point stays there for any `dt` when neither or both of Left/Right are held. |
| Physics.RightFromRestReachesMaxSpeed | main.cpp:308-320 | Holding Right for one second from rest gives `vx == MAX_HORIZONTAL_SPEED` exactly. |
| Physics.LeftWallReflects | main.cpp:334-336 | A ball at `x = BALL_RADIUS - 1` with `vx = -50` is put at `x = BALL_RADIUS` with `vx = 50`. |
| Physics.FallingBallLands | main.cpp:343-346 | A falling ball whose integrated `y` reaches the ground lands at `GROUND_LEVEL` with `vy == 0` and on the ground. |
| Events.MenuKey | main.cpp:247-258 | A menu key press leaves a valid selection, or leaves an invalid one untouched. It closes the window exactly on Enter with button 1 selected, and then changes nothing else. Keys other than Up, Down and Enter change nothing. The only state it can enter is Playing. |
| Events.PlayingKey | main.cpp:272-279 | While playing, a key press never moves the ball, changes `vx`, the state or the selection, or puts the ball on the ground. It closes the window exactly on Escape. Anything other than Up with the ball on the ground leaves the game data unchanged. |
| Events.HandleEvent | main.cpp:241-282 | A Closed event closes the window in any state. No event enters GameOver. A state change only enters Playing at the spawn point. Selection range, arena bounds, the speed limit and resting-on-ground are preserved. |
| Events.MenuNavigation | main.cpp:247-250 | In either menu, Up and Down toggle the selection between 0 and 1 and change nothing else. |
| Events.MenuEnterStartsGame | main.cpp:251-254 | Enter on button 0 in either menu starts Playing with the ball at spawn, whatever the prior ball. The selection stays 0 and the window stays open. |
| Events.MenuEnterQuits | main.cpp:255-256 | Enter on button 1 in either menu closes the window and changes nothing else. |
| Events.MenuEscapeIgnored | main.cpp:280-282 | Escape in either menu changes nothing and does not close the window, because this branch is unreachable. |
| Events.MenuOtherKeysIgnored | main.cpp:246-271 | In either menu, every key other than Up, Down and Enter (Escape, Left, Right, any other key) changes nothing and does not close the window. |
| Events.PlayingOtherKeysIgnored | main.cpp:272-279 | While playing, every key other than Up and Escape (Down, Enter, Left, Right, any other key) changes nothing and does not close the window. |
| Events.PlayingEscapeCloses | main.cpp:277-278 | Escape while playing closes the window and changes nothing else. |
| Events.JumpOnlyFromGround | main.cpp:274-276 | While playing, Up changes the game exactly when the ball is on the ground. It then sets `vy = JUMP_VELOCITY` and clears the ground flag, keeping `vx` and the position. |
| Events.HandleEvents | main.cpp:239-284 | A Closed event anywhere in a frame closes the window. The frame's events never enter GameOver and preserve the selection range, the arena bounds, the speed limit and resting-on-ground. |
| Events.HandleEventsSplit | main.cpp:240-284 | A frame's events are handled in order: splitting the sequence anywhere, the second part is handled from the data the first part left, and it is dropped entirely when the first part closed the window. |
| Events.HandleEventsSingle | main.cpp:240-284 | A frame with a single event handles exactly that event. |
| GameLoop.Tick | main.cpp:119-120 | One iteration keeps the loop invariant `Reachable`. A frame containing Closed ends the loop. |
| GameLoop.TickNoEvents | main.cpp:119-120 | A frame with no events is exactly one `updateGame` step, and the window stays open. |
| GameLoop.TickFirstEvent | main.cpp:119-120 | A frame handles its first event before anything else. If that event closes the window, the frame still runs `updateGame` once on the data it left and then ends the loop. Otherwise the frame continues with the remaining events. So the update runs after the events. |
| GameLoop.RunKeepsReachable | main.cpp:115-122 | This is the contract of `GameLoop.Run`, the functional form of the `while (window.isOpen())` loop. `Run` plays frames in order up to and including the frame that closes the window. From a state that satisfies the loop invariant `Reachable`, every state it reaches also satisfies it. `Reachable` means: valid selection, not GameOver, ball in the arena, `vx` within the speed limit, and resting whenever on the ground. |
| GameLoop.GameOverUnreachable | main.cpp:293-296 | From the initial game data, no sequence of frames reaches GameOver. |
| GameLoop.MainLoop | main.cpp:112-122 | The `while` loop over frames, starting from the initial game data, computes the same result as `GameLoop.Run`, the functional form of that loop. It ends in a state that satisfies `Reachable`, never GameOver. |

## Left out

- Rendering and layout are not modelled: `initializeGraphics`, `setupMenuButtons`, `renderGame` and the `MenuButton` shapes and text. They hold drawing calls and no decisions. Only the button count (two per menu) is kept, as `MENU_OPTION_COUNT`.
- Window creation, the font-loading fallback chain and console logging in `main` (`main.cpp:69-104`) are environment setup.
- The frame clock and the cap of the frame time at 1/30 s (`main.cpp:116-117`) are not modelled. The frame time is a parameter of each frame. Lemmas that need it non-negative require that.
- Keyboard polling and `window.pollEvent` are foreign calls. The held keys are boolean parameters and the events are a sequence. After a close request, the rest of the frame's events are dropped, because the graphics library delivers no events for a closed window. That library is not part of this model.
- Float rounding: positions, velocities and the frame time are `real`.
- Menu.MenuUp: does not model signed overflow of `selection - 1` at the smallest `int`. The selection is never outside `[0, 2)` in states the loop reaches (`GameLoop.RunKeepsReachable`).
- Menu.MenuDown: does not model signed overflow of `selection + 1` at the largest `int`. The selection is never outside `[0, 2)` in states the loop reaches (`GameLoop.RunKeepsReachable`).
- `updateMenuSelection` is declared at `main.cpp:60` but never defined or called, so it is not part of this model.
- Physics.UpdatePhysics: states that gravity increases `vy` when the ball is in the air and `dt > 0`, not the exact increment `GRAVITY * dt`. The exact arithmetic is the function's body. The exact `vx` for Left or Right alone is stated only when `dt >= 0` and the incoming `vx` is already within the speed limit. Every state the loop reaches satisfies that limit (`SpeedLimited` is part of `GameLoop.Reachable`, kept by `GameLoop.RunKeepsReachable`).
- Physics.HorizontalControl: states the direction of the change for Left or Right alone, not the exact increment `HORIZONTAL_ACCELERATION * dt`. `Physics.RightFromRestReachesMaxSpeed` pins one concrete case.

=== FILE: Events.dfy ===
/**
 Discrete input: the window events of one frame, handled one at a time.

 Closing the window is an output flag here. Key presses are routed by game
 state: the two menus move the selection and act on Enter; while playing,
 Up jumps (only from the ground) and Escape closes the window. The source's
 fourth branch, Escape in a state that is none of the three, cannot be
 reached; it is kept in the model so that its unreachability is visible.
 */
module Events {
  import opened GameTypes
  import opened Menu
  import opened Physics

  /** The keys the game reacts to; `OtherKey` stands for every other key. */
  datatype Key = Up | Down | Enter | Escape | Left | Right | OtherKey

  /** `OtherEvent` stands for every event that is neither a close request nor a key press. */
  datatype Event = Closed | KeyPressed(code: Key) | OtherEvent

  /** The game data after an event, and whether the window has been closed. */
  datatype EventOutcome = EventOutcome(data: GameData, windowClosed: bool)

  /** A key pressed while one of the two-button menus is shown. */
  function MenuKey(d: GameData, key: Key): (o: EventOutcome)
    ensures SelectionInRange(o.data)
            || (o.data.selectedMenuOption == d.selectedMenuOption && !SelectionInRange(d))
    ensures o.windowClosed <==> key == Enter && d.selectedMenuOption == 1
    ensures o.windowClosed ==> o.data == d
    ensures key != Up && key != Down && key != Enter ==> o == EventOutcome(d, false)
    ensures o.data.currentState == d.currentState || o.data.currentState == Playing
  {
    if key == Up then
      EventOutcome(d.(selectedMenuOption := MenuUp(d.selectedMenuOption, MENU_OPTION_COUNT)), false)
    else if key == Down then
      EventOutcome(d.(selectedMenuOption := MenuDown(d.selectedMenuOption, MENU_OPTION_COUNT)), false)
    else if key == Enter then
      if d.selectedMenuOption == 0 then
        EventOutcome(ResetGame(d.(currentState := Playing)), false)
      else if d.selectedMenuOption == 1 then
        EventOutcome(d, true)
      else
        EventOutcome(d, false)
    else
      EventOutcome(d, false)
  }

  /** A key pressed while playing. */
  function PlayingKey(d: GameData, key: Key): (o: EventOutcome)
    ensures o.data.currentState == d.currentState
    ensures o.data.selectedMenuOption == d.selectedMenuOption
    ensures o.data.ballPosition == d.ballPosition
    ensures o.data.isOnGround ==> d.isOnGround
    ensures o.data.ballVelocity.x == d.ballVelocity.x
    ensures o.windowClosed <==> key == Escape
    // Only a jump from the ground changes the game data.
    ensures !(key == Up && d.isOnGround) ==> o.data == d
  {
    if key == Up && d.isOnGround then
      EventOutcome(d.(ballVelocity := d.ballVelocity.(y := JUMP_VELOCITY), isOnGround := false), false)
    else if key == Escape then
      EventOutcome(d, true)
    else
      EventOutcome(d, false)
  }

  /** One window event. */
  function HandleEvent(d: GameData, e: Event): (o: EventOutcome)
    ensures e == Closed ==> o.windowClosed && o.data == d
    ensures e == OtherEvent ==> o == EventOutcome(d, false)
    // No event leads into the game-over menu.
    ensures o.data.currentState == GameOver ==> d.currentState == GameOver
    ensures o.data.currentState != d.currentState ==> o.data.currentState == Playing && AtSpawn(o.data)
    ensures SelectionInRange(d) ==> SelectionInRange(o.data)
    ensures InArena(d) ==> InArena(o.data)
    ensures RestsWhenOnGround(d) ==> RestsWhenOnGround(o.data)
    ensures SpeedLimited(d) ==> SpeedLimited(o.data)
  {
    var closeRequested := e == Closed;
    if e.KeyPressed? then
      if d.currentState == MainMenu then
        MenuKey(d, e.code)
      else if d.currentState == GameOver then
        MenuKey(d, e.code)
      else if d.currentState == Playing then
        PlayingKey(d, e.code)
      else if e.code == Escape then
        EventOutcome(d, true)
      else
        EventOutcome(d, false)
    else
      EventOutcome(d, closeRequested)
  }

  predicate InMenu(d: GameData) {
    d.currentState == MainMenu || d.currentState == GameOver
  }

  /** Up and Down in a menu move the selection with wraparound and change nothing else. */
  lemma MenuNavigation(d: GameData)
    requires InMenu(d)
    requires SelectionInRange(d)
    ensures HandleEvent(d, KeyPressed(Up))
         == EventOutcome(d.(selectedMenuOption := 1 - d.selectedMenuOption), false)
    ensures HandleEvent(d, KeyPressed(Down))
         == EventOutcome(d.(selectedMenuOption := 1 - d.selectedMenuOption), false)
  {
    MenuUpWraps(d.selectedMenuOption, MENU_OPTION_COUNT);
    MenuDownWraps(d.selectedMenuOption, MENU_OPTION_COUNT);
  }

  /** Enter on the first button (Start, or Restart) starts playing from the spawn point,
      whatever the ball was doing, and keeps the selection. */
  lemma MenuEnterStartsGame(d: GameData)
    requires InMenu(d)
    requires d.selectedMenuOption == 0
    ensures !HandleEvent(d, KeyPressed(Enter)).windowClosed
    ensures HandleEvent(d, KeyPressed(Enter)).data.currentState == Playing
    ensures AtSpawn(HandleEvent(d, KeyPressed(Enter)).data)
    ensures HandleEvent(d, KeyPressed(Enter)).data.selectedMenuOption == 0
  {
  }

  /** Enter on the second button (Quit) closes the window and changes nothing else. */
  lemma MenuEnterQuits(d: GameData)
    requires InMenu(d)
    requires d.selectedMenuOption == 1
    ensures HandleEvent(d, KeyPressed(Enter)) == EventOutcome(d, true)
  {
  }

  /** Escape in a menu does nothing: the branch that would close the window is unreachable. */
  lemma MenuEscapeIgnored(d: GameData)
    requires InMenu(d)
    ensures HandleEvent(d, KeyPressed(Escape)) == EventOutcome(d, false)
  {
  }

  /** In a menu, every key other than Up, Down and Enter (Escape, Left, Right, any
      other key) is ignored. */
  lemma MenuOtherKeysIgnored(d: GameData, key: Key)
    requires InMenu(d)
    requires key != Up && key != Down && key != Enter
    ensures HandleEvent(d, KeyPressed(key)) == EventOutcome(d, false)
  {
  }

  /** Escape while playing closes the window and changes nothing else. */
  lemma PlayingEscapeCloses(d: GameData)
    requires d.currentState == Playing
    ensures HandleEvent(d, KeyPressed(Escape)) == EventOutcome(d, true)
  {
  }

  /** While playing, every key other than Up and Escape (Down, Enter, Left, Right,
      any other key) is ignored. */
  lemma PlayingOtherKeysIgnored(d: GameData, key: Key)
    requires d.currentState == Playing
    requires key != Up && key != Escape
    ensures HandleEvent(d, KeyPressed(key)) == EventOutcome(d, false)
  {
  }

  /** Up while playing jumps exactly when the ball is on the ground; in the air it does nothing. */
  lemma JumpOnlyFromGround(d: GameData)
    requires d.currentState == Playing
    ensures !HandleEvent(d, KeyPressed(Up)).windowClosed
    ensures HandleEvent(d, KeyPressed(Up)).data != d <==> d.isOnGround
    ensures d.isOnGround ==>
              && HandleEvent(d, KeyPressed(Up)).data.ballVelocity == Vec2(d.ballVelocity.x, JUMP_VELOCITY)
              && !HandleEvent(d, KeyPressed(Up)).data.isOnGround
              && HandleEvent(d, KeyPressed(Up)).data.ballPosition == d.ballPosition
  {
  }

  /** All events of one frame in order. Once the window is closed the remaining
      events are not delivered, since polling a closed window yields nothing. */
  function HandleEvents(d: GameData, events: seq<Event>): (o: EventOutcome)
    ensures (exists i :: 0 <= i < |events| && events[i] == Closed) ==> o.windowClosed
    ensures o.data.currentState == GameOver ==> d.currentState == GameOver
    ensures SelectionInRange(d) ==> SelectionInRange(o.data)
    ensures InArena(d) ==> InArena(o.data)
    ensures RestsWhenOnGround(d) ==> RestsWhenOnGround(o.data)
    ensures SpeedLimited(d) ==> SpeedLimited(o.data)
    decreases |events|
  {
    if |events| == 0 then
      EventOutcome(d, false)
    else
      var first := HandleEvent(d, events[0]);
      if first.windowClosed then
        first
      else
        var rest := HandleEvents(first.data, events[1..]);
        assert forall i :: 1 <= i < |events| ==> events[i] == events[1..][i - 1];
        rest
  }

  /** A frame's events split anywhere: the second part is handled from where the
      first left off, unless the first part closed the window, in which case the
      second part is never delivered. */
  lemma {:induction false} HandleEventsSplit(d: GameData, a: seq<Event>, b: seq<Event>)
    ensures HandleEvents(d, a + b)
         == (var o := HandleEvents(d, a); if o.windowClosed then o else HandleEvents(o.data, b))
    decreases |a|
  {
    if |a| > 0 {
      assert (a + b)[0] == a[0];
      assert (a + b)[1..] == a[1..] + b;
      var first := HandleEvent(d, a[0]);
      if !first.windowClosed {
        HandleEventsSplit(first.data, a[1..], b);
      }
    } else {
      assert a + b == b;
    }
  }

  /** A frame with one event handles exactly that event. */
  lemma HandleEventsSingle(d: GameData, e: Event)
    ensures HandleEvents(d, [e]) == HandleEvent(d, e)
  {
    assert [e][1..] == [];
  }
}

=== FILE: GameLoop.dfy ===
/**
 The main loop with the clock, the keyboard and the renderer taken out:
 each frame hands over its window events, whether Left and Right are held,
 and the frame time. A frame handles the events, then advances the game;
 the loop stops after the frame in which the window was closed.
 */
module GameLoop {
  import opened GameTypes
  import opened Physics
  import opened Events

  /** The inputs of one iteration of the main loop. */
  datatype Frame = Frame(events: seq<Event>, leftPressed: bool, rightPressed: bool, dt: real)

  /** The game data and whether the window is still open. */
  datatype Session = Session(data: GameData, windowOpen: bool)

  /** The invariant of the game loop, kept by every frame: a valid selection, never
      the game-over menu, the ball inside the arena, within the speed limit, and
      resting whenever it is on the ground. */
  predicate Reachable(d: GameData) {
    && SelectionInRange(d)
    && d.currentState != GameOver
    && InArena(d)
    && SpeedLimited(d)
    && RestsWhenOnGround(d)
  }

  /** One iteration: events first, then the game update (which runs even in
      the frame that closed the window). */
  function Tick(d: GameData, f: Frame): (s: Session)
    ensures Reachable(d) ==> Reachable(s.data)
    ensures (exists i :: 0 <= i < |f.events| && f.events[i] == Closed) ==> !s.windowOpen
  {
    var handled := HandleEvents(d, f.events);
    Session(UpdateGame(handled.data, f.leftPressed, f.rightPressed, f.dt), !handled.windowClosed)
  }

  /** A frame without events is just the game update. */
  lemma TickNoEvents(d: GameData, leftPressed: bool, rightPressed: bool, dt: real)
    ensures Tick(d, Frame([], leftPressed, rightPressed, dt))
         == Session(UpdateGame(d, leftPressed, rightPressed, dt), true)
  {
  }

  /** The first event of a frame is handled before everything else; the game
      update runs after the events, also in the frame that closes the window. */
  lemma TickFirstEvent(d: GameData, e: Event, es: seq<Event>, leftPressed: bool, rightPressed: bool, dt: real)
    ensures Tick(d, Frame([e] + es, leftPressed, rightPressed, dt))
         == (var o := HandleEvent(d, e);
             if o.windowClosed then Session(UpdateGame(o.data, leftPressed, rightPressed, dt), false)
             else Tick(o.data, Frame(es, leftPressed, rightPressed, dt)))
  {
  }

  /** The frames in order, until the window closes; later frames are never played. */
  function Run(d: GameData, frames: seq<Frame>): (s: Session)
    decreases |frames|
  {
    if |frames| == 0 then
      Session(d, true)
    else
      var next := Tick(d, frames[0]);
      if !next.windowOpen then next else Run(next.data, frames[1..])
  }

  /** Every state the loop reaches from a reachable state is reachable. */
  lemma {:induction false} RunKeepsReachable(d: GameData, frames: seq<Frame>)
    requires Reachable(d)
    ensures Reachable(Run(d, frames).data)
    decreases |frames|
  {
    if |frames| > 0 {
      var next := Tick(d, frames[0]);
      if next.windowOpen {
        RunKeepsReachable(next.data, frames[1..]);
      }
    }
  }

  /** Whatever the player does, the game-over menu is never shown. */
  lemma GameOverUnreachable(frames: seq<Frame>)
    ensures Run(InitialGameData(), frames).data.currentState != GameOver
  {
    RunKeepsReachable(InitialGameData(), frames);
  }

  /** The loop of the program's entry point, frame by frame. */
  method MainLoop(frames: seq<Frame>) returns (d: GameData, windowOpen: bool)
    ensures Session(d, windowOpen) == Run(InitialGameData(), frames)
    ensures Reachable(d)
    ensures d.currentState != GameOver
  {
    d := InitialGameData();
    windowOpen := true;
    var played := 0;
    while windowOpen && played < |frames|
      invariant 0 <= played <= |frames|
      invariant Reachable(d)
      invariant windowOpen ==> Run(d, frames[played..]) == Run(InitialGameData(), frames)
      invariant !windowOpen ==> Session(d, windowOpen) == Run(InitialGameData(), frames)
      decreases |frames| - played
    {
      var next := Tick(d, frames[played]);
      assert frames[played..][1..] == frames[played + 1..];
      d, windowOpen := next.data, next.windowOpen;
      played := played + 1;
    }
  }
}

=== FILE: GameTypes.dfy ===
/**
 The data of the bouncing-ball game: its physics constants, the three game
 states, the record that holds the ball and the menu selection, and the
 two places that fix the spawn point (the record's initial value and
 `ResetGame`).

 The source stores positions, velocities and the frame time as 32-bit
 floats. They are modelled here as `real`: rounding is not modelled, and
 none of the properties proved about the model depend on it.
 */
module GameTypes {

  // Physics constants (pixels, seconds).
  const HORIZONTAL_ACCELERATION: real := 300.0
  const HORIZONTAL_DECELERATION: real := 200.0
  const MAX_HORIZONTAL_SPEED: real := 300.0
  /** Negative is upward: the y axis grows toward the bottom of the window. */
  const JUMP_VELOCITY: real := -400.0
  const GRAVITY: real := 800.0
  const BALL_RADIUS: real := 40.0
  const GROUND_LEVEL: real := 680.0
  /** Integer in the source; it is promoted to a float wherever it meets one. */
  const WINDOW_WIDTH: int := 1280
  const WINDOW_HEIGHT: int := 720

  /** Horizontal coordinate at which the ball (re)spawns. */
  const SPAWN_X: real := 640.0

  /** Both menus (Start/Quit and Restart/Quit) hold exactly two buttons. */
  const MENU_OPTION_COUNT: nat := 2

  datatype GameState = MainMenu | Playing | GameOver

  datatype Vec2 = Vec2(x: real, y: real)

  /** The game's whole mutable state, without the frame clock. */
  datatype GameData = GameData(
    ballPosition: Vec2,
    ballVelocity: Vec2,
    isOnGround: bool,
    currentState: GameState,
    selectedMenuOption: int
  )

  /** The ball at rest on the ground, in the middle of the window. */
  predicate AtSpawn(d: GameData) {
    && d.ballPosition == Vec2(SPAWN_X, GROUND_LEVEL)
    && d.ballVelocity == Vec2(0.0, 0.0)
    && d.isOnGround
  }

  /** The menu selection names one of the two buttons. */
  predicate SelectionInRange(d: GameData) {
    0 <= d.selectedMenuOption < MENU_OPTION_COUNT
  }

  /** The value the game starts from: main menu, first button selected, ball at spawn. */
  function InitialGameData(): (g: GameData)
    ensures AtSpawn(g)
    ensures g.currentState == MainMenu
    ensures g.selectedMenuOption == 0
  {
    GameData(Vec2(SPAWN_X, GROUND_LEVEL), Vec2(0.0, 0.0), true, MainMenu, 0)
  }

  /** Puts the ball back at the spawn point; the state and the selection are untouched. */
  function ResetGame(d: GameData): (r: GameData)
    ensures AtSpawn(r)
    ensures r.currentState == d.currentState
    ensures r.selectedMenuOption == d.selectedMenuOption
  {
    d.(ballPosition := Vec2(SPAWN_X, GROUND_LEVEL),
       ballVelocity := Vec2(0.0, 0.0),
       isOnGround := true)
  }

  /** The ball after a reset does not depend on where the ball was before. */
  lemma ResetForgetsBall(d: GameData, e: GameData)
    requires d.currentState == e.currentState
    requires d.selectedMenuOption == e.selectedMenuOption
    ensures ResetGame(d) == ResetGame(e)
  {
  }

  /** The constructor's initial ball and `ResetGame` agree on the spawn point:
      resetting the initial value changes nothing, and resetting twice is resetting once. */
  lemma ResetAgreesWithInitial(d: GameData)
    ensures ResetGame(InitialGameData()) == InitialGameData()
    ensures ResetGame(ResetGame(d)) == ResetGame(d)
  {
  }
}

=== FILE: Menu.dfy ===
/**
 Menu navigation: the selected button moves up or down and wraps around
 the ends of the menu.

 In the source the selection is a signed `int` and the button count a
 `size_t` (unsigned; 64 bits on a 64-bit target). The arithmetic therefore converts
 the signed intermediate value to `size_t` (reduction modulo 2^64 on a
 64-bit target) before taking the remainder; that conversion is written out below.
 */
module Menu {

  /** 2^64: the number of values of `size_t` on a 64-bit target. With a 32-bit
      `size_t` a two-button menu gives the same results, since both moduli are even. */
  const SIZE_T_MODULUS: int := 0x1_0000_0000_0000_0000

  /** The largest 32-bit `int`: the new selection is stored back into an `int`,
      so a menu cannot have more buttons than this. */
  const INT_MAX: int := 0x7FFF_FFFF

  /** Conversion of a signed value to a 64-bit `size_t`: reduction modulo 2^64. */
  function ToSizeT(v: int): (r: nat)
    ensures r < SIZE_T_MODULUS
    ensures 0 <= v < SIZE_T_MODULUS ==> r == v
    ensures -SIZE_T_MODULUS <= v < 0 ==> r == v + SIZE_T_MODULUS
    ensures SIZE_T_MODULUS <= v < 2 * SIZE_T_MODULUS ==> r == v - SIZE_T_MODULUS
  {
    v % SIZE_T_MODULUS
  }

  /** A value already below the modulus is its own remainder. */
  lemma ModBelow(v: int, n: int)
    requires 0 <= v < n
    ensures v % n == v
  {
  }

  /** A value between one and two moduli loses exactly one modulus. */
  lemma ModOnce(v: int, n: int)
    requires 0 < n <= v < 2 * n
    ensures v % n == v - n
  {
  }

  /** The Up key: `(selection - 1 + count) % count`, evaluated in `size_t`.
      Whatever the selection was, the result names a button. */
  function MenuUp(selection: int, count: nat): (r: int)
    requires 0 < count <= INT_MAX
    ensures 0 <= r < count
  {
    ToSizeT(ToSizeT(selection - 1) + count) % count
  }

  /** The Down key: `(selection + 1) % count`, evaluated in `size_t`.
      Whatever the selection was, the result names a button. */
  function MenuDown(selection: int, count: nat): (r: int)
    requires 0 < count <= INT_MAX
    ensures 0 <= r < count
  {
    ToSizeT(selection + 1) % count
  }

  /** From a valid selection, Up moves to the previous button and wraps from the first to the last. */
  lemma MenuUpWraps(selection: int, count: nat)
    requires 0 < count <= INT_MAX
    requires 0 <= selection < count
    ensures selection == 0 ==> MenuUp(selection, count) == count - 1
    ensures selection > 0 ==> MenuUp(selection, count) == selection - 1
  {
    var wrapped := ToSizeT(ToSizeT(selection - 1) + count);
    if selection == 0 {
      ModBelow(wrapped, count);
    } else {
      ModOnce(wrapped, count);
    }
  }

  /** From a valid selection, Down moves to the next button and wraps from the last to the first. */
  lemma MenuDownWraps(selection: int, count: nat)
    requires 0 < count <= INT_MAX
    requires 0 <= selection < count
    ensures selection == count - 1 ==> MenuDown(selection, count) == 0
    ensures selection < count - 1 ==> MenuDown(selection, count) == selection + 1
  {
    var next := ToSizeT(selection + 1);
    if selection == count - 1 {
      ModOnce(next, count);
    } else {
      ModBelow(next, count);
    }
  }

  /** Down then Up, and Up then Down, leave the selection where it was. */
  lemma UpDownInverse(selection: int, count: nat)
    requires 0 < count <= INT_MAX
    requires 0 <= selection < count
    ensures MenuUp(MenuDown(selection, count), count) == selection
    ensures MenuDown(MenuUp(selection, count), count) == selection
  {
    MenuDownWraps(selection, count);
    MenuUpWraps(MenuDown(selection, count), count);
    MenuUpWraps(selection, count);
    MenuDownWraps(MenuUp(selection, count), count);
  }

  /** The selection after pressing Down `presses` times. */
  function DownRepeated(selection: int, count: nat, presses: nat): (r: int)
    requires 0 < count <= INT_MAX
    requires 0 <= selection < count
    ensures 0 <= r < count
    decreases presses
  {
    if presses == 0 then selection
    else DownRepeated(MenuDown(selection, count), count, presses - 1)
  }

  /** Pressing Down `a + b` times is pressing it `a` times and then `b` times. */
  lemma {:induction false} DownRepeatedSplit(selection: int, count: nat, a: nat, b: nat)
    requires 0 < count <= INT_MAX
    requires 0 <= selection < count
    ensures DownRepeated(selection, count, a + b)
         == DownRepeated(DownRepeated(selection, count, a), count, b)
    decreases a
  {
    if a > 0 {
      DownRepeatedSplit(MenuDown(selection, count), count, a - 1, b);
    }
  }

  /** Below the last button, each Down press moves exactly one button further. */
  lemma {:induction false} DownRepeatedClimbs(selection: int, count: nat, presses: nat)
    requires 0 < count <= INT_MAX
    requires 0 <= selection && selection + presses < count
    ensures DownRepeated(selection, count, presses) == selection + presses
    decreases presses
  {
    if presses > 0 {
      MenuDownWraps(selection, count);
      DownRepeatedClimbs(selection + 1, count, presses - 1);
    }
  }

  /** Pressing Down as many times as the menu has buttons returns to the starting button. */
  lemma DownCycle(selection: int, count: nat)
    requires 0 < count <= INT_MAX
    requires 0 <= selection < count
    ensures DownRepeated(selection, count, count) == selection
  {
    var toLast := count - 1 - selection;
    DownRepeatedClimbs(selection, count, toLast);
    DownRepeatedSplit(selection, count, toLast, 1);
    MenuDownWraps(count - 1, count);
    DownRepeatedClimbs(0, count, selection);
    DownRepeatedSplit(selection, count, toLast + 1, selection);
  }
}

=== FILE: Physics.dfy ===
/**
 One frame of the ball's motion while the game is being played: horizontal
 control from the held Left/Right keys, the speed limit, gravity, explicit
 Euler integration, then the wall and ground collisions, then the game-over
 test.

 The held keys and the frame time are parameters: the source polls the
 keyboard and a clock for them. The frame time is any real number here;
 the lemmas that need it to be non-negative say so.
 */
module Physics {
  import opened GameTypes

  function Abs(v: real): (r: real) {
    if v < 0.0 then -v else v
  }

  function Sign(v: real): (r: real) {
    if v > 0.0 then 1.0 else if v < 0.0 then -1.0 else 0.0
  }

  function Max(a: real, b: real): (r: real) {
    if a < b then b else a
  }

  function Min(a: real, b: real): (r: real) {
    if a < b then a else b
  }

  /** Slowing down when neither or both of Left/Right are held: the speed
      shrinks by `HORIZONTAL_DECELERATION * dt` but stops at zero. */
  function Decelerate(vx: real, dt: real): (r: real)
    ensures 0.0 <= dt && vx >= 0.0 ==> 0.0 <= r <= vx
    ensures 0.0 <= dt && vx <= 0.0 ==> vx <= r <= 0.0
    ensures vx == 0.0 ==> r == 0.0
  {
    if vx > 0.0 then Max(0.0, vx - HORIZONTAL_DECELERATION * dt)
    else if vx < 0.0 then Min(0.0, vx + HORIZONTAL_DECELERATION * dt)
    else vx
  }

  /** Deceleration keeps the direction of travel and removes
      `HORIZONTAL_DECELERATION * dt` of speed, or all of it when there is less. */
  lemma DecelerateShrinksSpeed(vx: real, dt: real)
    requires 0.0 <= dt
    ensures Decelerate(vx, dt) == Sign(vx) * Max(0.0, Abs(vx) - HORIZONTAL_DECELERATION * dt)
    ensures Abs(Decelerate(vx, dt)) <= Abs(vx)
    ensures Decelerate(vx, dt) != 0.0 ==> Sign(Decelerate(vx, dt)) == Sign(vx)
  {
  }

  /** The effect of the held horizontal keys on the horizontal velocity. */
  function HorizontalControl(vx: real, leftPressed: bool, rightPressed: bool, dt: real): (r: real)
    ensures 0.0 <= dt && leftPressed && !rightPressed ==> r <= vx
    ensures 0.0 <= dt && rightPressed && !leftPressed ==> r >= vx
    ensures 0.0 <= dt && leftPressed == rightPressed ==> Abs(r) <= Abs(vx)
    // Neither or both: the speed drops by the deceleration, but never past zero.
    ensures 0.0 <= dt && leftPressed == rightPressed
            ==> r == Sign(vx) * Max(0.0, Abs(vx) - HORIZONTAL_DECELERATION * dt)
    ensures leftPressed == rightPressed && vx == 0.0 ==> r == 0.0
  {
    if leftPressed && !rightPressed then vx - HORIZONTAL_ACCELERATION * dt
    else if rightPressed && !leftPressed then vx + HORIZONTAL_ACCELERATION * dt
    else Decelerate(vx, dt)
  }

  /** The speed limit `[-MAX_HORIZONTAL_SPEED, MAX_HORIZONTAL_SPEED]`. */
  function ClampSpeed(v: real): (r: real)
    ensures -MAX_HORIZONTAL_SPEED <= r <= MAX_HORIZONTAL_SPEED
    ensures -MAX_HORIZONTAL_SPEED <= v <= MAX_HORIZONTAL_SPEED ==> r == v
    ensures v > MAX_HORIZONTAL_SPEED ==> r == MAX_HORIZONTAL_SPEED
    ensures v < -MAX_HORIZONTAL_SPEED ==> r == -MAX_HORIZONTAL_SPEED
  {
    Max(-MAX_HORIZONTAL_SPEED, Min(MAX_HORIZONTAL_SPEED, v))
  }

  /** Velocity update followed by position update for one frame. */
  function UpdatePhysics(d: GameData, leftPressed: bool, rightPressed: bool, dt: real): (r: GameData)
    ensures -MAX_HORIZONTAL_SPEED <= r.ballVelocity.x <= MAX_HORIZONTAL_SPEED
    // Gravity acts only on a ball in the air.
    ensures d.isOnGround ==> r.ballVelocity.y == d.ballVelocity.y
    ensures !d.isOnGround && dt > 0.0 ==> r.ballVelocity.y > d.ballVelocity.y
    // With neither or both keys held the ball never speeds up nor turns around.
    ensures 0.0 <= dt && leftPressed == rightPressed && d.ballVelocity.x >= 0.0
            ==> 0.0 <= r.ballVelocity.x <= d.ballVelocity.x
    ensures 0.0 <= dt && leftPressed == rightPressed && d.ballVelocity.x <= 0.0
            ==> d.ballVelocity.x <= r.ballVelocity.x <= 0.0
    // Neither or both keys held: a legal speed decelerates as `HorizontalControl` states.
    ensures 0.0 <= dt && -MAX_HORIZONTAL_SPEED <= d.ballVelocity.x <= MAX_HORIZONTAL_SPEED
            && leftPressed == rightPressed
            ==> r.ballVelocity.x == HorizontalControl(d.ballVelocity.x, leftPressed, rightPressed, dt)
    // With exactly one key held, a legal speed moves that way, up to the speed limit.
    ensures 0.0 <= dt && -MAX_HORIZONTAL_SPEED <= d.ballVelocity.x <= MAX_HORIZONTAL_SPEED
            && leftPressed && !rightPressed
            ==> r.ballVelocity.x == Max(-MAX_HORIZONTAL_SPEED, d.ballVelocity.x - HORIZONTAL_ACCELERATION * dt)
    ensures 0.0 <= dt && -MAX_HORIZONTAL_SPEED <= d.ballVelocity.x <= MAX_HORIZONTAL_SPEED
            && rightPressed && !leftPressed
            ==> r.ballVelocity.x == Min(MAX_HORIZONTAL_SPEED, d.ballVelocity.x + HORIZONTAL_ACCELERATION * dt)
    // The position moves by the already updated velocity.
    ensures r.ballPosition.x == d.ballPosition.x + r.ballVelocity.x * dt
    ensures r.ballPosition.y == d.ballPosition.y + r.ballVelocity.y * dt
    ensures r.isOnGround == d.isOnGround
    ensures r.currentState == d.currentState
    ensures r.selectedMenuOption == d.selectedMenuOption
  {
    var vx := ClampSpeed(HorizontalControl(d.ballVelocity.x, leftPressed, rightPressed, dt));
    var vy := if !d.isOnGround then d.ballVelocity.y + GRAVITY * dt else d.ballVelocity.y;
    d.(ballVelocity := Vec2(vx, vy),
       ballPosition := Vec2(d.ballPosition.x + vx * dt, d.ballPosition.y + vy * dt))
  }

  /** The ball lies inside the walls and does not reach below the ground. */
  predicate InArena(d: GameData) {
    && BALL_RADIUS <= d.ballPosition.x <= WINDOW_WIDTH as real - BALL_RADIUS
    && d.ballPosition.y <= GROUND_LEVEL
  }

  /** A ball marked as on the ground rests exactly on it. */
  predicate RestsWhenOnGround(d: GameData) {
    d.isOnGround ==> d.ballPosition.y == GROUND_LEVEL && d.ballVelocity.y == 0.0
  }

  /** The horizontal speed is within the speed limit. */
  predicate SpeedLimited(d: GameData) {
    -MAX_HORIZONTAL_SPEED <= d.ballVelocity.x <= MAX_HORIZONTAL_SPEED
  }

  /** A ball touching or beyond a side wall. */
  predicate HitsWall(d: GameData) {
    || d.ballPosition.x - BALL_RADIUS <= 0.0
    || d.ballPosition.x + BALL_RADIUS >= WINDOW_WIDTH as real
  }

  /** Perfect bounce off the side walls, then landing on the ground. */
  function HandleCollisions(d: GameData): (r: GameData)
    ensures InArena(r)
    ensures RestsWhenOnGround(r)
    ensures r.isOnGround <==> d.ballPosition.y >= GROUND_LEVEL
    ensures !r.isOnGround ==> r.ballPosition.y == d.ballPosition.y && r.ballVelocity.y == d.ballVelocity.y
    ensures HitsWall(d) ==> r.ballVelocity.x == -d.ballVelocity.x
    ensures !HitsWall(d) ==> r.ballPosition.x == d.ballPosition.x && r.ballVelocity.x == d.ballVelocity.x
    ensures d.ballPosition.x - BALL_RADIUS <= 0.0 ==> r.ballPosition.x == BALL_RADIUS
    ensures d.ballPosition.x - BALL_RADIUS > 0.0 && d.ballPosition.x + BALL_RADIUS >= WINDOW_WIDTH as real
            ==> r.ballPosition.x == WINDOW_WIDTH as real - BALL_RADIUS
    ensures r.currentState == d.currentState
    ensures r.selectedMenuOption == d.selectedMenuOption
  {
    var horizontal :=
      if d.ballPosition.x - BALL_RADIUS <= 0.0 then
        d.(ballPosition := d.ballPosition.(x := BALL_RADIUS),
           ballVelocity := d.ballVelocity.(x := -d.ballVelocity.x))
      else if d.ballPosition.x + BALL_RADIUS >= WINDOW_WIDTH as real then
        d.(ballPosition := d.ballPosition.(x := WINDOW_WIDTH as real - BALL_RADIUS),
           ballVelocity := d.ballVelocity.(x := -d.ballVelocity.x))
      else d;
    if horizontal.ballPosition.y >= GROUND_LEVEL then
      horizontal.(ballPosition := horizontal.ballPosition.(y := GROUND_LEVEL),
                  ballVelocity := horizontal.ballVelocity.(y := 0.0),
                  isOnGround := true)
    else
      horizontal.(isOnGround := false)
  }

  /** The game-over test: the ball has fallen more than a radius below the ground. */
  predicate FellThroughGround(d: GameData) {
    d.ballPosition.y > GROUND_LEVEL + BALL_RADIUS
  }

  /** Whatever the ball did before, after the collisions the game-over test is false. */
  lemma GameOverTestNeverFires(d: GameData)
    ensures !FellThroughGround(HandleCollisions(d))
  {
  }

  /** One frame of game logic: the ball moves only while playing. */
  function UpdateGame(d: GameData, leftPressed: bool, rightPressed: bool, dt: real): (r: GameData)
    ensures d.currentState != Playing ==> r == d
    // The game-over transition is unreachable: the state never changes here.
    ensures r.currentState == d.currentState
    ensures r.selectedMenuOption == d.selectedMenuOption
    ensures d.currentState == Playing ==>
              && -MAX_HORIZONTAL_SPEED <= r.ballVelocity.x <= MAX_HORIZONTAL_SPEED
              && InArena(r)
              && RestsWhenOnGround(r)
  {
    if d.currentState == Playing then
      var moved := HandleCollisions(UpdatePhysics(d, leftPressed, rightPressed, dt));
      if FellThroughGround(moved) then
        moved.(currentState := GameOver, selectedMenuOption := 0)
      else
        moved
    else
      d
  }

  /** The spawn point is at rest: with no net horizontal input a frame leaves it unchanged. */
  lemma SpawnIsFixedPoint(d: GameData, held: bool, dt: real)
    requires d.currentState == Playing
    requires AtSpawn(d)
    ensures UpdateGame(d, held, held, dt) == d
  {
  }

  /** Holding Right for one second from rest reaches the speed limit exactly. */
  lemma RightFromRestReachesMaxSpeed(d: GameData)
    requires d.currentState == Playing
    requires AtSpawn(d)
    ensures UpdateGame(d, false, true, 1.0).ballVelocity.x == MAX_HORIZONTAL_SPEED
  {
  }

  /** A ball past the left wall is put back on it, with its horizontal velocity reflected. */
  lemma LeftWallReflects(d: GameData)
    requires d.ballPosition.x == BALL_RADIUS - 1.0
    requires d.ballVelocity.x == -50.0
    ensures HandleCollisions(d).ballPosition.x == BALL_RADIUS
    ensures HandleCollisions(d).ballVelocity.x == 50.0
  {
  }

  /** A falling ball that reaches the ground lands: clamped, stopped, on the ground. */
  lemma FallingBallLands(d: GameData, dt: real)
    requires d.currentState == Playing
    requires !d.isOnGround
    requires UpdatePhysics(d, false, false, dt).ballPosition.y >= GROUND_LEVEL
    ensures UpdateGame(d, false, false, dt).ballPosition.y == GROUND_LEVEL
    ensures UpdateGame(d, false, false, dt).ballVelocity.y == 0.0
    ensures UpdateGame(d, false, false, dt).isOnGround
  {
  }
}
